=== FILE: README.md ===
# nrc271 NFT ledger — a Dafny model

This project models the `nrc271` non-fungible-token contract for the Nebulas
host: the token ledger in `contracts/nrc271-hybrid.js`, the single-owner guard
it inherits from `contracts/Ownable.js`, and the per-owner operator table of
`contracts/Operator.js`.

The ledger state (`Ledger.State`) holds:

- the collection metadata;
- the token counter;
- the token records `id → {id, dna, owner}`;
- the balance counters;
- the per-token approvals;
- the per-owner operator tables;
- the contract owner.

Every public call is a pure function from a state and the call's inputs to
`Result<State, Error>`. The host discards every write of a call that throws,
so a `Failure` carries no state: "a failed call leaves the state unchanged" is
built into the types. `LedgerProofs.Step` applies this rule when it runs a
sequence of calls.

The caller's address and the paid amount are explicit inputs. So is the host's
address check (`isValid: Address -> bool`). The random draw behind a paid
mint's dna is an integer input `draw`.

Modules, one per source component:

- `Wrappers`: `Option`, and `Result` with `:-` propagation, and `Outcome` for guards.
- `Types`: addresses, decoded JSON arguments, and one `Error` constructor per `throw`. `Message` gives each error's text.
- `Operator`: `Operator.js`.
- `Ownable`: `Ownable.js`.
- `Ledger`: the state, the public calls, and the invariant `Valid`.
- `LedgerProofs`: lemmas that relate calls to `Valid` and to each other.

`Valid` requires four things:

- the dna length is in 1..20;
- the token records are exactly those with ids 1..counter;
- each record is stored under its own id;
- every account's balance equals the number of records it owns.

`LedgerProofs.RunPreservesValid` shows that every sequence of calls keeps
`Valid`, starting from the state a successful `init` produces
(`LedgerProofs.InitEstablishesValid`).

Quirks of the code that the model keeps:

- `isApprovedForAll` returns `undefined` (modelled as `None`) when the owner has no operator table.
- `isApprovedForAll` counts only a stored value equal to the string `"true"`. A JSON boolean `true` passed to `setApprovalForAll` does not make an operator.
- `approve` rejects an approval to the owner before it checks the caller's permission. A per-token approved spender may not approve.
- `ownerMint` checks neither payment nor supply.
- `_transfer` writes the record under the record's own `id` field. It reads `_to`'s balance after writing `_from`'s, so a transfer to oneself leaves the balance unchanged.
- A price of 0 or below is accepted by `updatePrice`. With a negative price every paid mint fails with "Over payment detected.".
- A paid mint with a wrong payment fails on payment, not on supply, even when the supply is full, because `_mintSecurity` checks payment first (`LedgerProofs.SupplyOfTwo`).
- `Operator.set` with the key `__proto__` assigns through JavaScript's inherited `__proto__` setter, which ignores strings, booleans and numbers; an object or null replaces the table's prototype for the rest of the call only, because `JSON.stringify` keeps own properties alone. Nothing is stored, so `__proto__` can never become an operator (`Operator.Set`, `LedgerProofs.ProtoKeyNeverEnabled`).

## Model

| member | source | states |
|---|---|---|
| Operator.New | contracts/Operator.js:3-6 | a table built with no argument has no entries: `Get` is None for every key |
| Operator.Get | contracts/Operator.js:21-23 | present exactly for keys the table holds, with the stored value; absent (undefined) otherwise |
| Operator.Set | contracts/Operator.js:25-27 | after `set(k, v)`, `get(k)` is `v`, except for `__proto__`, where the table is unchanged; `get(k')` is unchanged for every other key |
| Operator.SetOverwrites | contracts/Operator.js:25-27 | `set(k, v2)` after `set(k, v1)` equals `set(k, v2)` alone, so `get(k)` is `v2` for every key other than `__proto__` |
| Operator.ProtoKeyNeverStored | contracts/Operator.js:25-27 | a table without a `__proto__` entry still has none after any `set`, so `get("__proto__")` stays absent |
| Operator.SetCommutes | contracts/Operator.js:25-27 | `set`s of distinct keys can be applied in either order |
| Ownable.OnlyOwner | contracts/Ownable.js:31-39 | passes exactly when `from` is the stored owner; otherwise fails with "You are not the owner!" |
| Ownable.VerifyAddress | contracts/Ownable.js:23-29 | passes exactly when the host accepts the address; otherwise fails with "The to address is not valid!" |
| Ownable.TransferOwnership | contracts/Ownable.js:43-56 | a non-owner fails with NotOwner whatever the host would answer; the owner fails on a rejected address; otherwise the new owner is `to`, and the old owner passes `_onlyOwner` only if `to == from` |
| Ledger.OwnerOf | contracts/nrc271-hybrid.js:245-247 | fails exactly when no record exists for the id, and otherwise returns the record's owner |
| Ledger.BalanceOf | contracts/nrc271-hybrid.js:233-243 | the stored count, or 0 for an account without a record; a natural number where the source returns its decimal string |
| Ledger.GetApproved | contracts/nrc271-hybrid.js:271-273 | present exactly when an approval is stored for the id, with the stored spender |
| Ledger.IsApprovedForAll | contracts/nrc271-hybrid.js:288-299 | undefined exactly when the owner has no operator table; true exactly when the stored value is the string "true" |
| Ledger.IsApprovedOrOwner | contracts/nrc271-hybrid.js:301-306 | fails for a missing token; truthy exactly when the spender is the owner, the approved spender or an operator; undefined (None) exactly when the spender is neither owner nor approved and the owner has no operator table, as the `||` chain passes `isApprovedForAll`'s undefined through |
| Ledger.Tokens | contracts/nrc271-hybrid.js:214-227 | lists the records under ids 1..counter in order; on a valid ledger every entry is present and carries its own id |
| Ledger.Init | contracts/nrc271-hybrid.js:41-67 | a dna length above 20 fails with DnaTooLong and one at most 0 fails with DnaNotPositive; otherwise counter 0, owner the caller, metadata as given, no tokens, zero balances, no approved spender and no operator table |
| Ledger.UpdatePrice | contracts/nrc271-hybrid.js:365-371 | succeeds exactly for the owner, sets the price, and leaves all other state unchanged |
| Ledger.UpdateDnaLength | contracts/nrc271-hybrid.js:373-390 | ownership is checked before the 1..20 range; on success only the dna length changes |
| Ledger.TransferOwnership | contracts/Ownable.js:43-51 | on the ledger, succeeds exactly for the owner with a host-accepted address, and then changes only the owner field |
| Ledger.GenerateDna | contracts/nrc271-hybrid.js:130-134 | for a length of at least 1, the dna has exactly that many decimal digits and no leading zero; for a length of 0 or below it is 0 |
| Ledger.AddToken | contracts/nrc271-hybrid.js:136-152 | the counter grows by 1; the new id holds `{id, dna, owner}`; the owner's balance grows by 1; all other records, balances and fields are unchanged |
| Ledger.MintSecurity | contracts/nrc271-hybrid.js:104-122 | an underpayment fails first, then an overpayment, then a full supply; it passes exactly on exact payment below the supply |
| Ledger.Mint | contracts/nrc271-hybrid.js:327-343 | errors in the order insufficient payment, over payment, supply filled; on success the counter grows by 1 and stays within the supply, the caller owns the new id with the generated dna, the caller's balance grows by 1, and nothing else changes |
| Ledger.OwnerMint | contracts/nrc271-hybrid.js:347-363 | succeeds exactly for the owner; stores the given dna verbatim under the next id, owned by `_to`; increments `_to`'s balance and the counter; nothing else changes |
| Ledger.Approve | contracts/nrc271-hybrid.js:249-269 | fails for a missing token, then for `_to` equal to the owner; succeeds exactly for the owner or an operator of the owner; on success it overwrites only this id's approval |
| Ledger.SetApprovalForAll | contracts/nrc271-hybrid.js:275-286 | fails exactly when the caller names itself; otherwise it stores the value under (caller, `_to`) and leaves every other pair's stored value and truthiness unchanged |
| Ledger.ClearApproval | contracts/nrc271-hybrid.js:183-193 | succeeds exactly when the token exists and `_owner` is its recorded owner; then only this id's approval is removed |
| Ledger.MoveToken | contracts/nrc271-hybrid.js:158-181 | a missing record fails with the `token.id` TypeError; a `_from` without a balance record fails with the `.lt` TypeError; a stored balance of 0 fails with "Insufficient account balance in transfer."; on success the record under its own id is owned by `_to`, `_from` loses one unit and `_to` gains one (net zero when they are equal), and nothing else changes |
| Ledger.Transfer | contracts/nrc271-hybrid.js:308-325 | fails for a missing token, then for a caller whose `isApprovedOrOwner` is falsy (false or undefined), then for a `_from` that is not the owner; on success the approval is cleared and the balances of `_from` and `_to` move by one unit each |
| LedgerProofs.AddTokenOwned | contracts/nrc271-hybrid.js:136-152 | when no stored id exceeds the counter (as on a valid ledger), adding a token adds the new id to the receiver's set of owned ids and to no other account's set |
| LedgerProofs.AddTokenPreservesValid | contracts/nrc271-hybrid.js:136-152 | adding a token keeps `Valid` |
| LedgerProofs.TransferState | contracts/nrc271-hybrid.js:158-166 | on a valid ledger, a successful transfer rewrites exactly the record under `_id`, keeping its id and dna |
| LedgerProofs.TransferOwned | contracts/nrc271-hybrid.js:158-181 | a transfer moves the id from `_from`'s set of owned ids to `_to`'s set, and changes no other account's set |
| LedgerProofs.InitEstablishesValid | contracts/nrc271-hybrid.js:41-67 | a successful `init` produces a valid ledger |
| LedgerProofs.MintPreservesValid | contracts/nrc271-hybrid.js:327-343 | a paid mint keeps `Valid` |
| LedgerProofs.OwnerMintPreservesValid | contracts/nrc271-hybrid.js:347-363 | an owner mint keeps `Valid` |
| LedgerProofs.TransferPreservesValid | contracts/nrc271-hybrid.js:308-325 | a transfer keeps `Valid`: balances still count owned tokens |
| LedgerProofs.SameTokensPreservesValid | contracts/nrc271-hybrid.js:249-286 | a call that leaves records, balances and counter alone, with the dna length still in range, keeps `Valid` |
| LedgerProofs.ApprovePreservesValid | contracts/nrc271-hybrid.js:249-269 | `approve` keeps `Valid` |
| LedgerProofs.SetApprovalForAllPreservesValid | contracts/nrc271-hybrid.js:275-286 | `setApprovalForAll` keeps `Valid` |
| LedgerProofs.UpdatePricePreservesValid | contracts/nrc271-hybrid.js:365-371 | `updatePrice` keeps `Valid` |
| LedgerProofs.UpdateDnaLengthPreservesValid | contracts/nrc271-hybrid.js:373-390 | `updateDnaLength` keeps `Valid`, including the 1..20 range |
| LedgerProofs.TransferOwnershipPreservesValid | contracts/Ownable.js:43-56 | `transferOwnership` keeps `Valid` |
| LedgerProofs.TransferSucceedsIff | contracts/nrc271-hybrid.js:168-181 | on a valid ledger the "Insufficient account balance" check and the missing-balance TypeError cannot fire; a transfer succeeds exactly when the caller is authorised and `_from` is the owner |
| LedgerProofs.TransferEffects | contracts/nrc271-hybrid.js:308-325 | after a transfer, `ownerOf(id)` is `_to`, the dna is kept, `getApproved(id)` is absent, and every other record is unchanged |
| LedgerProofs.ApproveThenTransfer | contracts/nrc271-hybrid.js:249-325 | a spender just approved for a token can transfer it from its owner |
| LedgerProofs.OperatorCanTransfer | contracts/nrc271-hybrid.js:275-325 | after `setApprovalForAll(op, "true")` with `op` not `__proto__`, the operator can transfer any of the owner's tokens |
| LedgerProofs.ProtoKeyNeverEnabled | contracts/nrc271-hybrid.js:275-298 | `setApprovalForAll("__proto__", v)` succeeds but, for any `v`, does not make `__proto__` an operator |
| LedgerProofs.RevokedOperatorDenied | contracts/nrc271-hybrid.js:288-325 | after storing any value other than "true", including boolean true, an operator other than `__proto__` is denied unless it is the token's approved spender |
| LedgerProofs.MintedDnaHasLength | contracts/nrc271-hybrid.js:130-146 | on a valid ledger a paid mint stores a dna with exactly the configured number of digits |
| LedgerProofs.OwnerMintIgnoresSupply | contracts/nrc271-hybrid.js:347-363 | at or beyond the supply every paid mint fails, yet the owner can still mint, pushing the counter past the supply |
| LedgerProofs.StepPreservesValid | contracts/nrc271-hybrid.js:249-390 | any single call, successful or not, keeps `Valid`, never lowers the counter and never deletes a record |
| LedgerProofs.RunPreservesValid | contracts/nrc271-hybrid.js:249-390 | any sequence of calls keeps `Valid`, never lowers the counter and never deletes a record |
| LedgerProofs.SupplyOfTwo | contracts/nrc271-hybrid.js:104-156 | with supply 2, price 10 and dna length 3, two exact mints give ids 1 and 2 with 3-digit dna; a third exact mint fails on supply, and a wrong payment fails on payment |

## Left out

- Event notifications (`Event.Trigger` for mint, transfer, approve and ownership transfer): they are host side effects and change no ledger state.
- `LocalContractStorage` persistence and its `parse`/`stringify` hooks, including `Operator.toString` and `Operator.parse` with a JSON argument: the store is modelled as Dafny maps, and these hooks only serialise that state.
- `Blockchain.transfer`, which forwards a positive payment to the owner: it is a call into the host and writes no ledger state. Its result is ignored by the source too.
- `Blockchain.verifyAddress`: it is the parameter `isValid`.
- `Blockchain.transaction.from` and `.value`: they are explicit inputs.
- `Math.random` and floating-point `Math.pow` in `_generateDna`: `Ledger.GenerateDna` takes the draw as an integer. Float rounding above about 15 digits is not modelled.
- `BigNumber`: balances and payments are natural numbers. `balanceOf` returns a natural number, not its decimal string.
- `parseInt` coercion of the dna length, including a NaN that passes both range checks: the dna length is an integer.
- Fractional prices, which `BigNumber` accepts: the price is an integer.
- Non-integer `supply` arguments to `init`: the supply is an integer. `_mintSecurity` compares the counter to the supply with JavaScript's coercing `>=`. A numeric string behaves like its number. A non-numeric one makes the comparison false for every counter, so the supply never fills and paid mints are uncapped. A fractional one lets one mint take the counter past it. `Ledger.Mint`'s bound `counter <= supply` holds only for integer supplies.
- Non-integer `_dna` arguments to `ownerMint`: dna is an integer.
- Coercion of ids and addresses to string object keys: ids are integers and addresses are strings.
- Inherited JavaScript object keys such as `constructor` and `__proto__`, which `Operator.get` returns as functions or objects where the model returns None: they are never equal to the string "true", so no approval depends on them.
- Object and array values for `setApprovalForAll`'s flag: they are modelled as `JNull`. Both compare unequal to "true". Under the key `__proto__` an object, or JSON null, replaces the table's prototype for the rest of the call only. `JSON.stringify` drops prototypes, so nothing of it persists.
- `name`, `details` and `tokenCounter`: they return fields of `Ledger.State` unchanged.
- Calling `init` a second time: the host runs it once, at deployment. `Ledger.Init` builds the state of a freshly deployed contract.

=== FILE: ledger.dfy ===
/** The nrc271 token ledger: collection metadata, a token counter, token
    records, balance counters, per-token approvals and per-owner operator
    tables, with the public calls as pure functions from a state and the
    call's inputs to a new state or the error the call throws. A thrown
    error discards every write of the call, so `Failure` carries no state. */
module Ledger {
  import opened Wrappers
  import opened Types
  import Operator
  import Ownable

  /** One NAS in its smallest unit (`new BigNumber(10).pow(18)`). */
  const NasUnit: nat := 1_000_000_000_000_000_000

  /** Largest accepted dna length. */
  const MaxDnaLength: int := 20

  datatype Token = Token(id: int, dna: int, owner: Address)

  /** The collection fields `init` stores verbatim. */
  datatype Metadata = Metadata(
    name: string,
    price: int,
    symbol: string,
    supply: int,
    license: string,
    assetUrl: string,
    dnaLength: int)

  datatype State = State(
    meta: Metadata,
    counter: nat,
    owner: Address,
    tokens: map<int, Token>,
    balances: map<Address, nat>,
    approvals: map<int, Address>,
    operators: map<Address, Operator.OperatorMap>)

  /** The price of one paid mint in the smallest unit. */
  function Wei(price: int): int {
    price * NasUnit
  }

  /** 10^n. */
  function Pow10(n: nat): (r: nat)
    ensures r >= 1
  {
    if n == 0 then 1 else 10 * Pow10(n - 1)
  }

  // ---------------------------------------------------------------------
  // Queries
  // ---------------------------------------------------------------------

  /** The token record stored under `id`, or None for the host's null. */
  function Lookup(s: State, id: int): Option<Token> {
    if id in s.tokens then Some(s.tokens[id]) else None
  }

  /** `ownerOf(_id)`: reading `.owner` of a missing record throws. */
  function OwnerOf(s: State, id: int): (r: Result<Address, Error>)
    ensures r.Failure? <==> Lookup(s, id).None?
    ensures r.Failure? ==> r.error == NoSuchToken
    ensures r.Success? ==> r.value == Lookup(s, id).value.owner
  {
    if id in s.tokens then Success(s.tokens[id].owner) else Failure(NoSuchToken)
  }

  /** `balanceOf(_owner)`: the stored count, or 0 without a record. The
      source returns the count as a decimal string. */
  function BalanceOf(s: State, a: Address): (r: nat)
    ensures a !in s.balances ==> r == 0
    ensures a in s.balances ==> r == s.balances[a]
  {
    if a in s.balances then s.balances[a] else 0
  }

  /** `getApproved(_id)`: the approved spender, or None. */
  function GetApproved(s: State, id: int): (r: Option<Address>)
    ensures r.Some? <==> id in s.approvals
    ensures r.Some? ==> r.value == s.approvals[id]
  {
    if id in s.approvals then Some(s.approvals[id]) else None
  }

  /** The raw value `owner` last stored for `operator`, or None. */
  function StoredFlag(s: State, owner: Address, operator: Address): Option<JsonValue> {
    if owner in s.operators then Operator.Get(s.operators[owner], operator) else None
  }

  /** `isApprovedForAll(_owner, _operator)`: None is JavaScript's undefined,
      returned when `owner` has no operator table at all; otherwise true
      exactly when the stored value is the string "true". */
  function IsApprovedForAll(s: State, owner: Address, operator: Address): (r: Option<bool>)
    ensures r.None? <==> owner !in s.operators
    ensures r == Some(true) <==> StoredFlag(s, owner, operator) == Some(JString("true"))
  {
    if owner in s.operators then
      Some(Operator.Get(s.operators[owner], operator) == Some(JString("true")))
    else
      None
  }

  /** JavaScript truthiness of an `isApprovedForAll` result. */
  predicate Truthy(b: Option<bool>) {
    b == Some(true)
  }

  /** `isApprovedOrOwner(_spender, _id)`: the owner, the approved spender or
      an operator of the owner. JavaScript's `||` chain yields its last
      operand, so when the spender is neither owner nor approved the result
      is `isApprovedForAll`'s, undefined (None) included. A null approval
      never equals an address. */
  function IsApprovedOrOwner(s: State, spender: Address, id: int): (r: Result<Option<bool>, Error>)
    ensures r.Failure? <==> id !in s.tokens
    ensures r.Failure? ==> r.error == NoSuchToken
    ensures r.Success? ==>
              (Truthy(r.value) <==>
                 || spender == s.tokens[id].owner
                 || GetApproved(s, id) == Some(spender)
                 || StoredFlag(s, s.tokens[id].owner, spender) == Some(JString("true")))
    ensures r.Success? ==>
              (r.value.None? <==>
                 && spender != s.tokens[id].owner
                 && GetApproved(s, id) != Some(spender)
                 && s.tokens[id].owner !in s.operators)
  {
    var owner :- OwnerOf(s, id);
    if spender == owner || GetApproved(s, id) == Some(spender) then Success(Some(true))
    else Success(IsApprovedForAll(s, owner, spender))
  }

  /** `tokens()`: the records stored under 1..counter, in id order, with
      None wherever the host would push null. */
  method Tokens(s: State) returns (ts: seq<Option<Token>>)
    ensures |ts| == s.counter
    ensures forall i :: 0 <= i < |ts| ==> ts[i] == Lookup(s, i + 1)
    ensures Valid(s) ==> forall i :: 0 <= i < |ts| ==> ts[i].Some? && ts[i].value.id == i + 1
  {
    ts := [];
    var i := 1;
    while i <= s.counter
      invariant 1 <= i <= s.counter + 1
      invariant |ts| == i - 1
      invariant forall j :: 0 <= j < |ts| ==> ts[j] == Lookup(s, j + 1)
    {
      ts := ts + [Lookup(s, i)];
      i := i + 1;
    }
  }

  // ---------------------------------------------------------------------
  // The ledger invariant
  // ---------------------------------------------------------------------

  /** The ids of the tokens `a` owns. */
  ghost function Owned(s: State, a: Address): set<int> {
    set id | id in s.tokens && s.tokens[id].owner == a
  }

  /** The state every call keeps: the dna length is in range, the records
      are exactly ids 1..counter, each stored under its own id, and every
      account's balance counts the records it owns. */
  ghost predicate Valid(s: State) {
    && 1 <= s.meta.dnaLength <= MaxDnaLength
    && (forall id :: id in s.tokens <==> 1 <= id <= s.counter)
    && (forall id :: id in s.tokens ==> s.tokens[id].id == id)
    && (forall a :: BalanceOf(s, a) == |Owned(s, a)|)
  }

  // ---------------------------------------------------------------------
  // Initialisation and administration
  // ---------------------------------------------------------------------

  /** `init(...)` run by `caller` on a freshly deployed contract. The range
      check is on the dna length; all other fields are stored unchecked. */
  function Init(caller: Address, name: string, price: int, symbol: string, supply: int,
                license: string, assetUrl: string, dnaLength: int): (r: Result<State, Error>)
    ensures dnaLength > MaxDnaLength ==> r == Failure(DnaTooLong)
    ensures dnaLength <= 0 ==> r == Failure(DnaNotPositive)
    ensures r.Success? <==> 1 <= dnaLength <= MaxDnaLength
    ensures r.Success? ==>
              && r.value.counter == 0
              && r.value.owner == caller
              && r.value.meta == Metadata(name, price, symbol, supply, license, assetUrl, dnaLength)
              && (forall id :: Lookup(r.value, id).None?)
              && (forall a :: BalanceOf(r.value, a) == 0)
              && (forall id :: GetApproved(r.value, id).None?)
              && (forall o, op :: IsApprovedForAll(r.value, o, op).None?)
  {
    if dnaLength > MaxDnaLength then Failure(DnaTooLong)
    else if dnaLength <= 0 then Failure(DnaNotPositive)
    else
      Success(State(Metadata(name, price, symbol, supply, license, assetUrl, dnaLength),
                    0, caller, map[], map[], map[], map[]))
  }

  /** `updatePrice(_price)`: owner only, no check on the new price. */
  function UpdatePrice(s: State, caller: Address, price: int): (r: Result<State, Error>)
    ensures r.Success? <==> caller == s.owner
    ensures r.Failure? ==> r.error == NotOwner
    ensures r.Success? ==> r.value.meta.price == price
    ensures r.Success? ==> r.value.meta.(price := s.meta.price) == s.meta && r.value.(meta := s.meta) == s
  {
    var guard := Ownable.OnlyOwner(s.owner, caller);
    if guard.Fail? then Failure(guard.error) else
    Success(s.(meta := s.meta.(price := price)))
  }

  /** `updateDnaLength(_dnaLength)`: ownership is checked before the range. */
  function UpdateDnaLength(s: State, caller: Address, dnaLength: int): (r: Result<State, Error>)
    ensures caller != s.owner ==> r == Failure(NotOwner)
    ensures caller == s.owner && dnaLength > MaxDnaLength ==> r == Failure(DnaTooLong)
    ensures caller == s.owner && dnaLength <= 0 ==> r == Failure(DnaNotPositive)
    ensures r.Success? <==> caller == s.owner && 1 <= dnaLength <= MaxDnaLength
    ensures r.Success? ==> r.value.meta.dnaLength == dnaLength
    ensures r.Success? ==> r.value.meta.(dnaLength := s.meta.dnaLength) == s.meta && r.value.(meta := s.meta) == s
  {
    var guard := Ownable.OnlyOwner(s.owner, caller);
    if guard.Fail? then Failure(guard.error) else
    if dnaLength > MaxDnaLength then Failure(DnaTooLong)
    else if dnaLength <= 0 then Failure(DnaNotPositive)
    else Success(s.(meta := s.meta.(dnaLength := dnaLength)))
  }

  /** The ledger's `transferOwnership(to)`: the guard's rule applied to the
      owner field, everything else untouched. */
  function TransferOwnership(s: State, caller: Address, to: Address,
                             isValid: Address -> bool): (r: Result<State, Error>)
    ensures caller != s.owner ==> r == Failure(NotOwner)
    ensures caller == s.owner && !isValid(to) ==> r == Failure(InvalidAddress)
    ensures r.Success? <==> caller == s.owner && isValid(to)
    ensures r.Success? ==> r.value.owner == to && r.value.(owner := s.owner) == s
  {
    var owner :- Ownable.TransferOwnership(s.owner, caller, to, isValid);
    Success(s.(owner := owner))
  }

  // ---------------------------------------------------------------------
  // Minting
  // ---------------------------------------------------------------------

  /** `_generateDna(length)`, with the random draw given as a natural number
      in place of `Math.random()`: the draw picks one of the 9 * 10^(length-1)
      numbers with exactly `length` decimal digits. For a length of 0 or
      below the source's floor of a number in (0, 1) is 0. */
  function GenerateDna(length: int, draw: nat): (d: int)
    ensures length >= 1 ==> Pow10(length - 1) <= d < Pow10(length)
    ensures length <= 0 ==> d == 0
  {
    if length <= 0 then 0
    else Pow10(length - 1) + draw % (9 * Pow10(length - 1))
  }

  /** `_generateId` followed by storing the record and counting it: the
      common effect of `_mint` and `ownerMint`. */
  function AddToken(s: State, to: Address, dna: int): (s': State)
    ensures s'.counter == s.counter + 1
    ensures Lookup(s', s'.counter) == Some(Token(s'.counter, dna, to))
    ensures forall id :: id != s'.counter ==> Lookup(s', id) == Lookup(s, id)
    ensures BalanceOf(s', to) == BalanceOf(s, to) + 1
    ensures forall a :: a != to ==> BalanceOf(s', a) == BalanceOf(s, a)
    ensures s'.(counter := s.counter, tokens := s.tokens, balances := s.balances) == s
  {
    var id := s.counter + 1;
    s.(counter := id,
       tokens := s.tokens[id := Token(id, dna, to)],
       balances := s.balances[to := BalanceOf(s, to) + 1])
  }

  /** `_mintSecurity(value, price)`: payment first, then supply. */
  function MintSecurity(s: State, value: nat): (r: Outcome<Error>)
    ensures value < Wei(s.meta.price) ==> r == Fail(InsufficientPayment)
    ensures value > Wei(s.meta.price) ==> r == Fail(OverPayment)
    ensures value == Wei(s.meta.price) && s.counter >= s.meta.supply ==> r == Fail(SupplyFilled)
    ensures r.Pass? <==> value == Wei(s.meta.price) && s.counter < s.meta.supply
  {
    if value < Wei(s.meta.price) then Fail(InsufficientPayment)
    else if value > Wei(s.meta.price) then Fail(OverPayment)
    else if s.counter >= s.meta.supply then Fail(SupplyFilled)
    else Pass
  }

  /** `mint()` by `caller` paying `value`, with `draw` standing for the
      random source. The payment forwarded to the owner is not part of the
      ledger state. */
  function Mint(s: State, caller: Address, value: nat, draw: nat): (r: Result<State, Error>)
    ensures value < Wei(s.meta.price) ==> r == Failure(InsufficientPayment)
    ensures value > Wei(s.meta.price) ==> r == Failure(OverPayment)
    ensures value == Wei(s.meta.price) && s.counter >= s.meta.supply ==> r == Failure(SupplyFilled)
    ensures r.Success? <==> value == Wei(s.meta.price) && s.counter < s.meta.supply
    ensures r.Success? ==>
              var s' := r.value;
              && s'.counter == s.counter + 1
              && s'.counter <= s.meta.supply
              && Lookup(s', s'.counter) == Some(Token(s'.counter, GenerateDna(s.meta.dnaLength, draw), caller))
              && (forall id :: id != s'.counter ==> Lookup(s', id) == Lookup(s, id))
              && BalanceOf(s', caller) == BalanceOf(s, caller) + 1
              && (forall a :: a != caller ==> BalanceOf(s', a) == BalanceOf(s, a))
              && s'.(counter := s.counter, tokens := s.tokens, balances := s.balances) == s
  {
    var security := MintSecurity(s, value);
    if security.Fail? then Failure(security.error) else
    Success(AddToken(s, caller, GenerateDna(s.meta.dnaLength, draw)))
  }

  /** `ownerMint(_to, _dna)`: owner only; no payment and no supply check. */
  function OwnerMint(s: State, caller: Address, to: Address, dna: int): (r: Result<State, Error>)
    ensures r.Success? <==> caller == s.owner
    ensures r.Failure? ==> r.error == NotOwner
    ensures r.Success? ==>
              var s' := r.value;
              && s'.counter == s.counter + 1
              && Lookup(s', s'.counter) == Some(Token(s'.counter, dna, to))
              && (forall id :: id != s'.counter ==> Lookup(s', id) == Lookup(s, id))
              && BalanceOf(s', to) == BalanceOf(s, to) + 1
              && (forall a :: a != to ==> BalanceOf(s', a) == BalanceOf(s, a))
              && s'.(counter := s.counter, tokens := s.tokens, balances := s.balances) == s
  {
    var guard := Ownable.OnlyOwner(s.owner, caller);
    if guard.Fail? then Failure(guard.error) else
    Success(AddToken(s, to, dna))
  }

  // ---------------------------------------------------------------------
  // Approvals
  // ---------------------------------------------------------------------

  /** `approve(_to, _id)` by `caller`. Approving the owner is rejected before
      permission is checked; a per-token spender may not approve. */
  function Approve(s: State, caller: Address, to: Address, id: int): (r: Result<State, Error>)
    ensures id !in s.tokens ==> r == Failure(NoSuchToken)
    ensures id in s.tokens && to == s.tokens[id].owner ==> r == Failure(SelfApproval)
    ensures r.Success? <==>
              && id in s.tokens
              && to != s.tokens[id].owner
              && (caller == s.tokens[id].owner || Truthy(IsApprovedForAll(s, s.tokens[id].owner, caller)))
    ensures id in s.tokens && to != s.tokens[id].owner && r.Failure? ==> r.error == ApproveDenied
    ensures r.Success? ==>
              && GetApproved(r.value, id) == Some(to)
              && (forall j :: j != id ==> GetApproved(r.value, j) == GetApproved(s, j))
              && r.value.(approvals := s.approvals) == s
  {
    var owner :- OwnerOf(s, id);
    if to == owner then Failure(SelfApproval)
    else if owner == caller || Truthy(IsApprovedForAll(s, owner, caller)) then
      Success(s.(approvals := s.approvals[id := to]))
    else
      Failure(ApproveDenied)
  }

  /** `setApprovalForAll(_to, _approved)` by `caller`: stores the argument
      as given in the caller's operator table, creating the table if needed.
      Under the key `__proto__` the table creation is all that persists. */
  function SetApprovalForAll(s: State, caller: Address, to: Address, approved: JsonValue): (r: Result<State, Error>)
    ensures r.Success? <==> caller != to
    ensures r.Failure? ==> r.error == SelfOperator
    ensures r.Success? ==>
              && (to != Operator.ProtoKey ==> StoredFlag(r.value, caller, to) == Some(approved))
              && (to == Operator.ProtoKey ==> StoredFlag(r.value, caller, to) == StoredFlag(s, caller, to))
              && IsApprovedForAll(r.value, caller, to).Some?
              && (to != Operator.ProtoKey ==>
                    IsApprovedForAll(r.value, caller, to) == Some(approved == JString("true")))
              && (forall o, op :: (o, op) != (caller, to) ==> StoredFlag(r.value, o, op) == StoredFlag(s, o, op))
              && (forall o, op :: (o, op) != (caller, to) ==>
                    Truthy(IsApprovedForAll(r.value, o, op)) == Truthy(IsApprovedForAll(s, o, op)))
              && r.value.(operators := s.operators) == s
  {
    if caller == to then Failure(SelfOperator)
    else
      var table := if caller in s.operators then s.operators[caller] else Operator.New();
      Success(s.(operators := s.operators[caller := Operator.Set(table, to, approved)]))
  }

  // ---------------------------------------------------------------------
  // Transfer
  // ---------------------------------------------------------------------

  /** `_clearApproval(_owner, _id)`: re-reads the owner and rejects a
      mismatching `_owner` before deleting the approval. */
  function ClearApproval(s: State, from: Address, id: int): (r: Result<State, Error>)
    ensures id !in s.tokens ==> r == Failure(NoSuchToken)
    ensures id in s.tokens && from != s.tokens[id].owner ==> r == Failure(ClearApprovalDenied)
    ensures r.Success? <==> id in s.tokens && from == s.tokens[id].owner
    ensures r.Success? ==>
              && GetApproved(r.value, id) == None
              && (forall j :: j != id ==> GetApproved(r.value, j) == GetApproved(s, j))
              && r.value.(approvals := s.approvals) == s
  {
    var owner :- OwnerOf(s, id);
    if from != owner then Failure(ClearApprovalDenied)
    else Success(s.(approvals := s.approvals - {id}))
  }

  /** `_transfer(_from, _to, _id)`: rewrites the record under its own stored
      id, then decrements `_from` and increments `_to`, reading `_to`'s
      count after `_from`'s has been written. */
  function MoveToken(s: State, from: Address, to: Address, id: int): (r: Result<State, Error>)
    ensures id !in s.tokens ==> r == Failure(NoTokenToMove)
    ensures id in s.tokens && from !in s.balances ==> r == Failure(NoBalanceRecord)
    ensures id in s.tokens && from in s.balances && s.balances[from] == 0 ==> r == Failure(InsufficientBalance)
    ensures r.Success? <==> id in s.tokens && BalanceOf(s, from) >= 1
    ensures r.Success? ==>
              var t := s.tokens[id];
              && Lookup(r.value, t.id) == Some(Token(t.id, t.dna, to))
              && (forall j :: j != t.id ==> Lookup(r.value, j) == Lookup(s, j))
              && (from != to ==> BalanceOf(r.value, from) == BalanceOf(s, from) - 1)
              && (from != to ==> BalanceOf(r.value, to) == BalanceOf(s, to) + 1)
              && (from == to ==> BalanceOf(r.value, to) == BalanceOf(s, to))
              && (forall a :: a != from && a != to ==> BalanceOf(r.value, a) == BalanceOf(s, a))
              && r.value.(tokens := s.tokens, balances := s.balances) == s
  {
    if id !in s.tokens then Failure(NoTokenToMove)
    else
      var t := s.tokens[id];
      var tokens' := s.tokens[t.id := Token(t.id, t.dna, to)];
      if from !in s.balances then Failure(NoBalanceRecord)
      else if s.balances[from] < 1 then Failure(InsufficientBalance)
      else
        var b := s.balances[from := s.balances[from] - 1];
        var toCount := if to in b then b[to] else 0;
        Success(s.(tokens := tokens', balances := b[to := toCount + 1]))
  }

  /** `transfer(_from, _to, _id)` by `caller`. */
  function Transfer(s: State, caller: Address, from: Address, to: Address, id: int): (r: Result<State, Error>)
    ensures id !in s.tokens ==> r == Failure(NoSuchToken)
    ensures IsApprovedOrOwner(s, caller, id).Success? && !Truthy(IsApprovedOrOwner(s, caller, id).value) ==>
              r == Failure(TransferDenied)
    ensures IsApprovedOrOwner(s, caller, id) == Success(Some(true)) && from != s.tokens[id].owner ==>
              r == Failure(ClearApprovalDenied)
    ensures r.Success? ==>
              && IsApprovedOrOwner(s, caller, id) == Success(Some(true))
              && from == s.tokens[id].owner
              && GetApproved(r.value, id) == None
              && (forall j :: j != id ==> GetApproved(r.value, j) == GetApproved(s, j))
              && (from != to ==> BalanceOf(r.value, from) == BalanceOf(s, from) - 1)
              && (from != to ==> BalanceOf(r.value, to) == BalanceOf(s, to) + 1)
              && (from == to ==> BalanceOf(r.value, to) == BalanceOf(s, to))
              && (forall a :: a != from && a != to ==> BalanceOf(r.value, a) == BalanceOf(s, a))
              && r.value.(tokens := s.tokens, balances := s.balances, approvals := s.approvals) == s
  {
    var ok :- IsApprovedOrOwner(s, caller, id);
    if !Truthy(ok) then Failure(TransferDenied)
    else
      var cleared :- ClearApproval(s, from, id);
      MoveToken(cleared, from, to, id)
  }
}

=== FILE: ledger_proofs.dfy ===
/** Properties of the ledger that relate calls to the invariant `Valid` and
    to one another. */
module LedgerProofs {
  import opened Wrappers
  import opened Types
  import opened Ledger
  import Operator

  // ---------------------------------------------------------------------
  // Ownership sets under the two writes that touch token records
  // ---------------------------------------------------------------------

  /** Adding token `counter + 1` for `to`, when no stored id exceeds the
      counter, adds that id to `to`'s set only. */
  lemma AddTokenOwned(s: State, to: Address, dna: int, a: Address)
    requires forall id :: id in s.tokens ==> id <= s.counter
    ensures s.counter + 1 !in Owned(s, a)
    ensures Owned(AddToken(s, to, dna), a) ==
              if a == to then Owned(s, a) + {s.counter + 1} else Owned(s, a)
  {
    var n := s.counter + 1;
    var tokens' := AddToken(s, to, dna).tokens;
    assert tokens' == s.tokens[n := Token(n, dna, to)];
    var expected := if a == to then Owned(s, a) + {n} else Owned(s, a);
    assert forall id :: id in tokens' && tokens'[id].owner == a <==> id in expected;
  }

  /** Adding a token keeps the invariant; this is what `mint` and
      `ownerMint` both do once their checks have passed. */
  lemma AddTokenPreservesValid(s: State, to: Address, dna: int)
    requires Valid(s)
    ensures Valid(AddToken(s, to, dna))
  {
    var s' := AddToken(s, to, dna);
    forall id
      ensures id in s'.tokens <==> 1 <= id <= s'.counter
    {
      if id != s'.counter {
        assert Lookup(s', id) == Lookup(s, id);
      }
    }
    forall id | id in s'.tokens
      ensures s'.tokens[id].id == id
    {
      if id != s'.counter {
        assert Lookup(s', id) == Lookup(s, id);
      }
    }
    forall a
      ensures BalanceOf(s', a) == |Owned(s', a)|
    {
      AddTokenOwned(s, to, dna, a);
    }
  }

  /** The state a successful transfer of a well-formed ledger produces. */
  lemma TransferState(s: State, caller: Address, from: Address, to: Address, id: int)
    requires Valid(s)
    requires Transfer(s, caller, from, to, id).Success?
    ensures id in s.tokens && s.tokens[id].owner == from
    ensures Transfer(s, caller, from, to, id).value.tokens ==
              s.tokens[id := Token(id, s.tokens[id].dna, to)]
  {
  }

  /** A transfer moves `id` from `from`'s set to `to`'s set and nothing else. */
  lemma TransferOwned(s: State, caller: Address, from: Address, to: Address, id: int, a: Address)
    requires Valid(s)
    requires Transfer(s, caller, from, to, id).Success?
    ensures id in Owned(s, from)
    ensures Owned(Transfer(s, caller, from, to, id).value, a) ==
              if a == to then Owned(s, a) + {id}
              else if a == from then Owned(s, a) - {id}
              else Owned(s, a)
  {
  }

  // ---------------------------------------------------------------------
  // Every call keeps the invariant
  // ---------------------------------------------------------------------

  /** A successful `init` yields a well-formed empty ledger. */
  lemma InitEstablishesValid(caller: Address, name: string, price: int, symbol: string, supply: int,
                             license: string, assetUrl: string, dnaLength: int)
    requires Init(caller, name, price, symbol, supply, license, assetUrl, dnaLength).Success?
    ensures Valid(Init(caller, name, price, symbol, supply, license, assetUrl, dnaLength).value)
  {
  }

  lemma MintPreservesValid(s: State, caller: Address, value: nat, draw: nat)
    requires Valid(s)
    requires Mint(s, caller, value, draw).Success?
    ensures Valid(Mint(s, caller, value, draw).value)
  {
    AddTokenPreservesValid(s, caller, GenerateDna(s.meta.dnaLength, draw));
  }

  lemma OwnerMintPreservesValid(s: State, caller: Address, to: Address, dna: int)
    requires Valid(s)
    requires OwnerMint(s, caller, to, dna).Success?
    ensures Valid(OwnerMint(s, caller, to, dna).value)
  {
    AddTokenPreservesValid(s, to, dna);
  }

  lemma TransferPreservesValid(s: State, caller: Address, from: Address, to: Address, id: int)
    requires Valid(s)
    requires Transfer(s, caller, from, to, id).Success?
    ensures Valid(Transfer(s, caller, from, to, id).value)
  {
    TransferState(s, caller, from, to, id);
    var s' := Transfer(s, caller, from, to, id).value;
    forall a
      ensures BalanceOf(s', a) == |Owned(s', a)|
    {
      TransferOwned(s, caller, from, to, id, a);
      TransferOwned(s, caller, from, to, id, from);
      if a == to && a != from {
        assert id !in Owned(s, a);
        assert |Owned(s', a)| == |Owned(s, a)| + 1;
        assert BalanceOf(s', a) == BalanceOf(s, a) + 1;
      } else if a == from && a != to {
        assert |Owned(s', a)| == |Owned(s, a)| - 1;
        assert BalanceOf(s', a) == BalanceOf(s, a) - 1;
      } else if a == from {
        assert Owned(s', a) == Owned(s, a);
        assert BalanceOf(s', a) == BalanceOf(s, a);
      } else {
        assert Owned(s', a) == Owned(s, a);
        assert BalanceOf(s', a) == BalanceOf(s, a);
      }
    }
  }

  /** Calls that write neither token records nor balances keep the
      invariant as long as the dna length stays in range. */
  lemma SameTokensPreservesValid(s: State, s': State)
    requires Valid(s)
    requires s'.tokens == s.tokens && s'.balances == s.balances && s'.counter == s.counter
    requires 1 <= s'.meta.dnaLength <= MaxDnaLength
    ensures Valid(s')
  {
    forall a
      ensures BalanceOf(s', a) == |Owned(s', a)|
    {
      assert Owned(s', a) == Owned(s, a);
    }
  }

  lemma ApprovePreservesValid(s: State, caller: Address, to: Address, id: int)
    requires Valid(s)
    requires Approve(s, caller, to, id).Success?
    ensures Valid(Approve(s, caller, to, id).value)
  {
    SameTokensPreservesValid(s, Approve(s, caller, to, id).value);
  }

  lemma SetApprovalForAllPreservesValid(s: State, caller: Address, to: Address, approved: JsonValue)
    requires Valid(s)
    requires SetApprovalForAll(s, caller, to, approved).Success?
    ensures Valid(SetApprovalForAll(s, caller, to, approved).value)
  {
    SameTokensPreservesValid(s, SetApprovalForAll(s, caller, to, approved).value);
  }

  lemma UpdatePricePreservesValid(s: State, caller: Address, price: int)
    requires Valid(s)
    requires UpdatePrice(s, caller, price).Success?
    ensures Valid(UpdatePrice(s, caller, price).value)
  {
    SameTokensPreservesValid(s, UpdatePrice(s, caller, price).value);
  }

  lemma UpdateDnaLengthPreservesValid(s: State, caller: Address, dnaLength: int)
    requires Valid(s)
    requires UpdateDnaLength(s, caller, dnaLength).Success?
    ensures Valid(UpdateDnaLength(s, caller, dnaLength).value)
  {
    SameTokensPreservesValid(s, UpdateDnaLength(s, caller, dnaLength).value);
  }

  lemma TransferOwnershipPreservesValid(s: State, caller: Address, to: Address, isValid: Address -> bool)
    requires Valid(s)
    requires TransferOwnership(s, caller, to, isValid).Success?
    ensures Valid(TransferOwnership(s, caller, to, isValid).value)
  {
    SameTokensPreservesValid(s, TransferOwnership(s, caller, to, isValid).value);
  }

  // ---------------------------------------------------------------------
  // Transfer
  // ---------------------------------------------------------------------

  /** On a well-formed ledger the balance checks inside `_transfer` never
      fire: a transfer succeeds exactly when the caller is authorised and
      `from` is the recorded owner. */
  lemma TransferSucceedsIff(s: State, caller: Address, from: Address, to: Address, id: int)
    requires Valid(s)
    ensures Transfer(s, caller, from, to, id) != Failure(NoBalanceRecord)
    ensures Transfer(s, caller, from, to, id) != Failure(InsufficientBalance)
    ensures Transfer(s, caller, from, to, id).Success? <==>
              IsApprovedOrOwner(s, caller, id) == Success(Some(true)) && from == s.tokens[id].owner
  {
    if IsApprovedOrOwner(s, caller, id) == Success(Some(true)) && from == s.tokens[id].owner {
      assert id in Owned(s, from);
      assert BalanceOf(s, from) >= 1;
    }
  }

  /** After a transfer the token belongs to `to`, keeps its dna, has no
      approved spender, and every other token is untouched. */
  lemma TransferEffects(s: State, caller: Address, from: Address, to: Address, id: int)
    requires Valid(s)
    requires Transfer(s, caller, from, to, id).Success?
    ensures OwnerOf(Transfer(s, caller, from, to, id).value, id) == Success(to)
    ensures Lookup(Transfer(s, caller, from, to, id).value, id).value.dna == s.tokens[id].dna
    ensures GetApproved(Transfer(s, caller, from, to, id).value, id) == None
    ensures forall j :: j != id ==> Lookup(Transfer(s, caller, from, to, id).value, j) == Lookup(s, j)
  {
    TransferState(s, caller, from, to, id);
  }

  /** A spender the owner has just approved can move the token. */
  lemma ApproveThenTransfer(s: State, owner: Address, spender: Address, to: Address, id: int)
    requires Valid(s)
    requires Approve(s, owner, spender, id).Success?
    ensures Transfer(Approve(s, owner, spender, id).value, spender, s.tokens[id].owner, to, id).Success?
  {
    var s1 := Approve(s, owner, spender, id).value;
    ApprovePreservesValid(s, owner, spender, id);
    TransferSucceedsIff(s1, spender, s.tokens[id].owner, to, id);
  }

  /** An operator enabled with the string "true" can move any token of the
      owner who enabled it. */
  lemma OperatorCanTransfer(s: State, owner: Address, operator: Address, to: Address, id: int)
    requires Valid(s)
    requires owner != operator && operator != Operator.ProtoKey
    requires id in s.tokens && s.tokens[id].owner == owner
    ensures SetApprovalForAll(s, owner, operator, JString("true")).Success?
    ensures Transfer(SetApprovalForAll(s, owner, operator, JString("true")).value, operator, owner, to, id).Success?
  {
    var s1 := SetApprovalForAll(s, owner, operator, JString("true")).value;
    SetApprovalForAllPreservesValid(s, owner, operator, JString("true"));
    TransferSucceedsIff(s1, operator, owner, to, id);
  }

  /** Storing anything other than the string "true" (including the JSON
      boolean true) revokes the operator: unless it is the token's approved
      spender, it can no longer move the owner's tokens. */
  lemma RevokedOperatorDenied(s: State, owner: Address, operator: Address, flag: JsonValue,
                              from: Address, to: Address, id: int)
    requires owner != operator && operator != Operator.ProtoKey && flag != JString("true")
    requires id in s.tokens && s.tokens[id].owner == owner
    requires GetApproved(s, id) != Some(operator)
    ensures SetApprovalForAll(s, owner, operator, flag).Success?
    ensures Transfer(SetApprovalForAll(s, owner, operator, flag).value, operator, from, to, id) ==
              Failure(TransferDenied)
  {
  }

  /** Naming `__proto__` as an operator, even with the string "true",
      never enables it: JavaScript stores nothing under that key. */
  lemma ProtoKeyNeverEnabled(s: State, owner: Address, flag: JsonValue)
    requires owner != Operator.ProtoKey
    requires !Truthy(IsApprovedForAll(s, owner, Operator.ProtoKey))
    ensures SetApprovalForAll(s, owner, Operator.ProtoKey, flag).Success?
    ensures !Truthy(IsApprovedForAll(SetApprovalForAll(s, owner, Operator.ProtoKey, flag).value,
                                     owner, Operator.ProtoKey))
  {
  }

  // ---------------------------------------------------------------------
  // Minting
  // ---------------------------------------------------------------------

  /** A paid mint stores a dna of exactly the configured number of digits. */
  lemma MintedDnaHasLength(s: State, caller: Address, value: nat, draw: nat)
    requires Valid(s)
    requires Mint(s, caller, value, draw).Success?
    ensures var s' := Mint(s, caller, value, draw).value;
            Pow10(s.meta.dnaLength - 1) <= s'.tokens[s'.counter].dna < Pow10(s.meta.dnaLength)
  {
  }

  /** `ownerMint` succeeds for the owner even when the paid supply is full,
      pushing the counter past the cap. */
  lemma OwnerMintIgnoresSupply(s: State, to: Address, dna: int)
    requires s.counter >= s.meta.supply
    ensures forall value: nat, draw: nat :: Mint(s, to, value, draw).Failure?
    ensures OwnerMint(s, s.owner, to, dna).Success?
    ensures OwnerMint(s, s.owner, to, dna).value.counter > s.meta.supply
  {
  }

  // ---------------------------------------------------------------------
  // Runs of calls
  // ---------------------------------------------------------------------

  /** One public call with its caller and inputs. */
  datatype Call =
    | MintCall(caller: Address, value: nat, draw: nat)
    | OwnerMintCall(caller: Address, to: Address, dna: int)
    | ApproveCall(caller: Address, to: Address, id: int)
    | SetApprovalForAllCall(caller: Address, to: Address, approved: JsonValue)
    | TransferCall(caller: Address, from: Address, to: Address, id: int)
    | UpdatePriceCall(caller: Address, price: int)
    | UpdateDnaLengthCall(caller: Address, dnaLength: int)
    | TransferOwnershipCall(caller: Address, to: Address)

  /** The result of one call; a call that throws leaves the state as it was. */
  function Step(s: State, c: Call, isValid: Address -> bool): State {
    var r := match c
      case MintCall(caller, value, draw) => Mint(s, caller, value, draw)
      case OwnerMintCall(caller, to, dna) => OwnerMint(s, caller, to, dna)
      case ApproveCall(caller, to, id) => Approve(s, caller, to, id)
      case SetApprovalForAllCall(caller, to, approved) => SetApprovalForAll(s, caller, to, approved)
      case TransferCall(caller, from, to, id) => Transfer(s, caller, from, to, id)
      case UpdatePriceCall(caller, price) => UpdatePrice(s, caller, price)
      case UpdateDnaLengthCall(caller, dnaLength) => UpdateDnaLength(s, caller, dnaLength)
      case TransferOwnershipCall(caller, to) => TransferOwnership(s, caller, to, isValid);
    if r.Success? then r.value else s
  }

  /** The state after a sequence of calls, executed one at a time. */
  function Run(s: State, calls: seq<Call>, isValid: Address -> bool): State
    decreases |calls|
  {
    if |calls| == 0 then s else Run(Step(s, calls[0], isValid), calls[1..], isValid)
  }

  /** Every single call keeps the invariant, whether it succeeds or throws,
      never lowers the counter and never deletes a token record. */
  lemma StepPreservesValid(s: State, c: Call, isValid: Address -> bool)
    requires Valid(s)
    ensures Valid(Step(s, c, isValid))
    ensures Step(s, c, isValid).counter >= s.counter
    ensures s.tokens.Keys <= Step(s, c, isValid).tokens.Keys
  {
    match c
    case MintCall(caller, value, draw) =>
      if Mint(s, caller, value, draw).Success? { MintPreservesValid(s, caller, value, draw); }
    case OwnerMintCall(caller, to, dna) =>
      if OwnerMint(s, caller, to, dna).Success? { OwnerMintPreservesValid(s, caller, to, dna); }
    case ApproveCall(caller, to, id) =>
      if Approve(s, caller, to, id).Success? { ApprovePreservesValid(s, caller, to, id); }
    case SetApprovalForAllCall(caller, to, approved) =>
      if SetApprovalForAll(s, caller, to, approved).Success? {
        SetApprovalForAllPreservesValid(s, caller, to, approved);
      }
    case TransferCall(caller, from, to, id) =>
      if Transfer(s, caller, from, to, id).Success? {
        TransferPreservesValid(s, caller, from, to, id);
        TransferState(s, caller, from, to, id);
      }
    case UpdatePriceCall(caller, price) =>
      if UpdatePrice(s, caller, price).Success? { UpdatePricePreservesValid(s, caller, price); }
    case UpdateDnaLengthCall(caller, dnaLength) =>
      if UpdateDnaLength(s, caller, dnaLength).Success? {
        UpdateDnaLengthPreservesValid(s, caller, dnaLength);
      }
    case TransferOwnershipCall(caller, to) =>
      if TransferOwnership(s, caller, to, isValid).Success? {
        TransferOwnershipPreservesValid(s, caller, to, isValid);
      }
  }

  /** Any run of calls from a well-formed ledger keeps it well-formed, so
      balances always count owned tokens and ids 1..counter always exist;
      the counter only grows and no token record ever disappears. */
  lemma {:induction false} RunPreservesValid(s: State, calls: seq<Call>, isValid: Address -> bool)
    requires Valid(s)
    ensures Valid(Run(s, calls, isValid))
    ensures Run(s, calls, isValid).counter >= s.counter
    ensures s.tokens.Keys <= Run(s, calls, isValid).tokens.Keys
    decreases |calls|
  {
    if |calls| > 0 {
      StepPreservesValid(s, calls[0], isValid);
      RunPreservesValid(Step(s, calls[0], isValid), calls[1..], isValid);
    }
  }

  // ---------------------------------------------------------------------
  // A supply of two
  // ---------------------------------------------------------------------

  /** With a supply of 2 and a price of 10, two exactly paid mints succeed
      and assign ids 1 and 2; the third fails on supply when paid exactly,
      and on payment when not, since payment is checked first. */
  lemma SupplyOfTwo(deployer: Address, buyer: Address, draw: nat, wrong: nat)
    requires wrong != 10 * NasUnit
    ensures Init(deployer, "X", 10, "X", 2, "MIT", "url", 3).Success?
    ensures var s0 := Init(deployer, "X", 10, "X", 2, "MIT", "url", 3).value;
            && Mint(s0, buyer, 10 * NasUnit, draw).Success?
            && var s1 := Mint(s0, buyer, 10 * NasUnit, draw).value;
            && s1.counter == 1 && s1.tokens[1].owner == buyer
            && 100 <= s1.tokens[1].dna < 1000
            && Mint(s1, buyer, 10 * NasUnit, draw).Success?
            && var s2 := Mint(s1, buyer, 10 * NasUnit, draw).value;
            && s2.counter == 2 && BalanceOf(s2, buyer) == 2
            && Mint(s2, buyer, 10 * NasUnit, draw) == Failure(SupplyFilled)
            && Mint(s2, buyer, wrong, draw).Failure?
            && Mint(s2, buyer, wrong, draw).error != SupplyFilled
  {
  }
}

=== FILE: operator.dfy ===
/** The operator table of one token owner: a JavaScript object used as a
    string-keyed map from operator address to the value last stored for it. */
module Operator {
  import opened Wrappers
  import opened Types

  /** Values are stored exactly as the caller passed them. */
  datatype OperatorMap = OperatorMap(entries: map<string, JsonValue>)

  /** `new Operator()` with no argument: there is nothing to parse, so the
      table starts without entries. */
  function New(): (o: OperatorMap)
    ensures forall key :: Get(o, key) == None
  {
    OperatorMap(map[])
  }

  /** The one key whose assignment JavaScript routes to the inherited
      `__proto__` setter instead of creating an own property. The setter
      ignores strings, booleans and numbers; an object or null replaces the
      table's prototype for the rest of the call only, since `JSON.stringify`
      keeps own properties alone. Nothing is stored under this key. */
  const ProtoKey: string := "__proto__"

  /** `get(key)`: the stored value, or None where JavaScript yields undefined. */
  function Get(o: OperatorMap, key: string): (r: Option<JsonValue>)
    ensures r.Some? <==> key in o.entries
    ensures r.Some? ==> r.value == o.entries[key]
  {
    if key in o.entries then Some(o.entries[key]) else None
  }

  /** `set(key, value)`: stores `value` under `key`, overwriting, except
      under `ProtoKey`, where nothing is stored. */
  function Set(o: OperatorMap, key: string, value: JsonValue): (o': OperatorMap)
    ensures key != ProtoKey ==> Get(o', key) == Some(value)
    ensures key == ProtoKey ==> o' == o
    ensures forall k :: k != key ==> Get(o', k) == Get(o, k)
  {
    if key == ProtoKey then o else OperatorMap(o.entries[key := value])
  }

  /** A second `set` of the same key replaces the first entirely. */
  lemma SetOverwrites(o: OperatorMap, key: string, v1: JsonValue, v2: JsonValue)
    ensures Set(Set(o, key, v1), key, v2) == Set(o, key, v2)
    ensures key != ProtoKey ==> Get(Set(Set(o, key, v1), key, v2), key) == Some(v2)
  {
  }

  /** A table built only by `New` and `Set` never holds `ProtoKey`. */
  lemma ProtoKeyNeverStored(o: OperatorMap, key: string, value: JsonValue)
    requires ProtoKey !in o.entries
    ensures ProtoKey !in Set(o, key, value).entries
    ensures Get(Set(o, key, value), ProtoKey) == None
  {
  }

  /** `set`s of distinct keys do not interfere, so their order is irrelevant. */
  lemma SetCommutes(o: OperatorMap, k1: string, v1: JsonValue, k2: string, v2: JsonValue)
    requires k1 != k2
    ensures Set(Set(o, k1, v1), k2, v2) == Set(Set(o, k2, v2), k1, v1)
  {
  }
}

=== FILE: ownable.dfy ===
/** The single-owner guard the ledger inherits: one stored owner address,
    checked by `_onlyOwner` and replaced only by `transferOwnership`. */
module Ownable {
  import opened Wrappers
  import opened Types

  /** `_onlyOwner(from)`: passes exactly for the stored owner. */
  function OnlyOwner(owner: Address, from: Address): (r: Outcome<Error>)
    ensures r.Pass? <==> from == owner
    ensures r.Fail? ==> r.error == NotOwner && Message(r.error) == "You are not the owner!"
  {
    if owner != from then Fail(NotOwner) else Pass
  }

  /** `_verifyAddress(address)`; the host's address check is the parameter
      `isValid`. */
  function VerifyAddress(isValid: Address -> bool, address: Address): (r: Outcome<Error>)
    ensures r.Pass? <==> isValid(address)
    ensures r.Fail? ==> r.error == InvalidAddress && Message(r.error) == "The to address is not valid!"
  {
    if !isValid(address) then Fail(InvalidAddress) else Pass
  }

  /** `transferOwnership(to)` called by `from`; the result is the new stored
      owner. Ownership is checked before the host is asked about `to`, so a
      non-owner fails the same way whatever the host would answer. */
  function TransferOwnership(owner: Address, from: Address, to: Address,
                             isValid: Address -> bool): (r: Result<Address, Error>)
    ensures from != owner ==> r == Failure(NotOwner)
    ensures from == owner && !isValid(to) ==> r == Failure(InvalidAddress)
    ensures from == owner && isValid(to) ==> r == Success(to)
    ensures r.Success? ==> (OnlyOwner(r.value, from).Pass? <==> to == from)
  {
    var guard := OnlyOwner(owner, from);
    if guard.Fail? then Failure(guard.error) else
    var check := VerifyAddress(isValid, to);
    if check.Fail? then Failure(check.error) else
    Success(to)
  }
}

=== FILE: types.dfy ===
/** Values the host hands to the contracts, and the errors they throw. */
module Types {

  /** An account address as the host passes it: a string. */
  type Address = string

  /** A call argument after the host has decoded it from JSON. Strings,
      booleans and integers are kept apart; every other value (an object, an
      array, a fractional number, a missing argument) compares unequal to
      the string "true" and so behaves like `JNull`. */
  datatype JsonValue = JString(s: string) | JBool(b: bool) | JNumber(n: int) | JNull

  /** One constructor per distinct `throw` of the contracts. The three
      `TypeError`s are the ones JavaScript raises when a lookup returns null
      and the code dereferences it. */
  datatype Error =
    | NotOwner              // Ownable._onlyOwner
    | InvalidAddress        // Ownable._verifyAddress
    | DnaTooLong            // dna length above 20
    | DnaNotPositive        // dna length 0 or below
    | InsufficientPayment   // payment below the price
    | OverPayment           // payment above the price
    | SupplyFilled          // paid mint at or beyond the supply
    | NoSuchToken           // TypeError: no token record for the id
    | NoTokenToMove         // TypeError: `_transfer` finds no token record
    | NoBalanceRecord       // TypeError: no balance record for `_from`
    | InsufficientBalance   // `_from`'s balance is below 1
    | ClearApprovalDenied   // `_from` is not the recorded owner
    | SelfApproval          // approve to the token's own owner
    | ApproveDenied         // approve by neither owner nor operator
    | SelfOperator          // setApprovalForAll naming the caller
    | TransferDenied        // transfer by an unauthorised caller

  /** The message each error carries. */
  function Message(e: Error): string {
    match e
    case NotOwner => "You are not the owner!"
    case InvalidAddress => "The to address is not valid!"
    case DnaTooLong => "Dna length limit is 20!"
    case DnaNotPositive => "Dna must be higher than 0!"
    case InsufficientPayment => "Insufficient payment."
    case OverPayment => "Over payment detected."
    case SupplyFilled => "The token supply has been filled."
    case NoSuchToken => "Cannot read property 'owner' of null"
    case NoTokenToMove => "Cannot read property 'id' of null"
    case NoBalanceRecord => "Cannot read property 'lt' of null"
    case InsufficientBalance => "Insufficient account balance in transfer."
    case ClearApprovalDenied => "Permission denied in clear approval."
    case SelfApproval => "Invalid address in approve."
    case ApproveDenied => "permission denied in approve."
    case SelfOperator => "invalid address in setApprovalForAll."
    case TransferDenied => "Permission denied in transfer."
  }
}

=== FILE: wrappers.dfy ===
/** Return types for calls that may throw: a `throw` becomes a `Failure` (or,
    for a guard, a `Fail`) that carries no state, so a call that throws leaves
    nothing behind, as the host's rollback guarantees. `Result` supports `:-`
    propagation; `Outcome` is tested explicitly with `Fail?`. */
module Wrappers {

  /** A present value, or the host's null/undefined. */
  datatype Option<+T> = None | Some(value: T)

  /** The outcome of a call that returns a value or throws an error. */
  datatype Result<+R, +E> = Success(value: R) | Failure(error: E) {

    predicate IsFailure() {
      Failure?
    }

    function PropagateFailure<U>(): Result<U, E>
      requires Failure?
    {
      Failure(error)
    }

    function Extract(): R
      requires Success?
    {
      value
    }
  }

  /** The outcome of a guard that either passes or throws an error. */
  datatype Outcome<+E> = Pass | Fail(error: E)
}
